=== FILE: README.md ===
# Trading client and order intake, modelled in Dafny

This project models two parts of a small market-data trading system.

- **`FinanceClient`** (`trading_client.py`) is the trading client. It keeps
  four per-symbol histories: prices, traded quantities, buy volumes and sell
  volumes. It also keeps a portfolio of shares per symbol and an available
  capital. For every decoded market tick it:
  1. appends the tick to the symbol's histories;
  2. computes window moving averages, rounded to cents;
  3. classifies the volume as HIGH, LOW or NORMAL;
  4. derives a BUY, SELL or WAIT signal;
  5. scores a sentiment clamped to [-100, 100];
  6. sizes an order;
  7. applies a simulated fill to the capital and the portfolio;
  8. reports the result row and the order it sends.

  The total portfolio value is the capital plus every holding marked at its
  symbol's last price.
- **The order server's `handle_order_client`** (`tcp_server.py`) buffers the
  text it receives and cuts it into lines at each newline. It skips blank
  lines. It accepts every other line whose stripped text parses as JSON, and
  reports it as invalid otherwise.

Modules, one per file:

- `Options` holds the option type.
- `Rounding` holds Python's `int()` truncation and `round(x, 2)`, which
  rounds half to even.
- `Statistics` holds `calculate_moving_average`.
- `Signals` holds `analyze_volume`, the signal rule and `analyze_sentiment`.
- `Sizing` holds `calculate_trade_quantity`.
- `Ledger` holds the fill and the portfolio valuation.
- `Client` holds the `FinanceClient` class, its tick step and the order
  message.
- `OrderIntake` holds the framing loop of the order server.

Pure computations are functions with lemmas. The tick step mutates the
client's maps, so it is a class whose methods are proved against those
functions. The framing loop is a pair of nested `while` loops proved against
a recursive `Split` of the received text.

Prices, quantities and capital are exact reals. The tick step can raise a
Python `ZeroDivisionError` in two places:

- `price / price_ma`, when the moving average is zero;
- `max_investment / price`, when the price is zero and the signal is BUY or
  SELL.

The `except Exception` at trading_client.py:271 turns either into a dropped
tick, modelled as the `ProcessingError` outcome. The histories stay appended
and the ledger is unchanged.

The model keeps three behaviours of the code as written, even where the
code's own comments describe something else:

- **News collapse.** The comment at trading_client.py:67 maps news values
  0, 50 and 100 to a factor between -25 and +25. Lines 73-74 turn 100 into 0
  and then every 0 into 100, so 0 and 100 both give +25, and -25 is never
  reached (`NewsFactorCollapse`, `NewsFactorInRange`).
- **Minimum quantity.** The comment at line 109 says "At least $10,000 worth
  or 1 share". The code takes `min(1, int(10000 / price))`, so the minimum is
  at most one share, and 0 above a price of 10000 (`MinQuantity`,
  `MinQuantityAboveTenThousand`).
- **BUY bump.** Lines 116-117 raise a BUY that the capital cannot cover to at
  least 10000 shares. The fill at line 212 then skips it, but the order at
  lines 237-245 is still sent (`TradeQuantity`, `OrderMatchesFill`).

## Model

| member | source | states |
|---|---|---|
| Rounding.Trunc | trading_client.py:103 | Python's `int()` on a float: truncation toward zero; its bounds are `TruncTowardZero` |
| Rounding.TruncTowardZero | trading_client.py:103 | `int()` truncates toward zero: for x ≥ 0 it is the floor of x (never negative), for x < 0 the ceiling of x (never positive) |
| Rounding.Abs | trading_client.py:96 | Python's `abs` on a real |
| Rounding.RoundHalfEven | trading_client.py:40 | the rounded integer is within one half of its argument, and an exact tie goes to the even neighbour |
| Rounding.RoundHalfEvenNearest | trading_client.py:40 | no integer is nearer to the argument than the rounded one |
| Rounding.Round2 | trading_client.py:40 | `round(x, 2)` is a whole number of cents within half a cent of x |
| Rounding.Round2Nearest | trading_client.py:40 | no whole number of cents is nearer to x than `round(x, 2)` |
| Rounding.RoundHalfEvenMonotone | trading_client.py:40 | rounding to an integer preserves order |
| Rounding.Round2Monotone | trading_client.py:88 | rounding to cents preserves order |
| Rounding.Round2Cents | trading_client.py:40 | a whole number of cents is left unchanged |
| Rounding.Round2Within | trading_client.py:40 | a value between two cent amounts rounds to a value between them |
| Rounding.Round2HalfEven | trading_client.py:40 | ties go to the even cent: 0.125 → 0.12, 0.375 → 0.38, -0.125 → -0.12 |
| Statistics.Sum | trading_client.py:39 | Python's `sum` over a history; bounded by `SumBounds`, constant lists by `SumConstant` |
| Statistics.Window | trading_client.py:39 | `data_list[-window_size:]` has `window_size` entries, the last ones of the list in order |
| Statistics.MovingAverage | trading_client.py:37-41 | the average is None exactly when the list has fewer than `window_size` entries |
| Statistics.SumBounds | trading_client.py:39 | entries bounded by lo and hi give a sum between n·lo and n·hi |
| Statistics.SumConstant | trading_client.py:39 | n equal entries c sum to n·c |
| Statistics.MovingAverageBounds | trading_client.py:37-41 | with enough entries, the average of a window whose entries lie in [lo, hi] lies in [round(lo), round(hi)] |
| Statistics.MovingAverageConstant | trading_client.py:37-41 | a constant window averages to the rounded constant |
| Statistics.MovingAverageFullHistory | trading_client.py:37-41 | when the list is exactly one window long, the average is the rounded mean of the whole list |
| Statistics.MovingAverageIgnoresOlder | trading_client.py:37-41 | entries before the last window never change the average |
| Signals.AnalyzeVolume | trading_client.py:121-128 | NORMAL without an average; HIGH iff quantity > 1.5·avg; LOW iff quantity < 0.5·avg and not HIGH |
| Signals.AnalyzeVolumeMonotone | trading_client.py:121-128 | against a non-negative average, a larger quantity never gets a lower class |
| Signals.AnalyzeVolumeReferencePoints | trading_client.py:124-128 | for a positive whole average: twice the average is HIGH, the average itself NORMAL, and two fifths of it LOW when that is a whole quantity |
| Signals.DecideSignal | trading_client.py:195-200 | WAIT without a price average; BUY iff price > MA and volume is not LOW; SELL iff price < MA and volume is not HIGH; price equal to the MA gives WAIT |
| Signals.StrictlyRising | trading_client.py:62 | `all(recent[i] < recent[i + 1] …)`: each entry below the next |
| Signals.StrictlyFalling | trading_client.py:64 | `all(recent[i] > recent[i + 1] …)`: each entry above the next |
| Signals.TrendFactor | trading_client.py:59-65 | +25 iff at least three prices and the last three strictly rise; -25 iff at least three and they strictly fall; otherwise 0 |
| Signals.NewsFactorCollapse | trading_client.py:67-76 | news 0 and news 100 both give +25; news 50, absent news and unparseable news give 0 |
| Signals.NewsFactorInRange | trading_client.py:73-76 | a news value in [0, 100] gives a factor in (-25, 25], equal to (n - 50)/2 unless n is 0 or 100 |
| Signals.VolumeRatioFactor | trading_client.py:79-84 | 0 unless both buy and sell averages exist and the sell average is non-zero; then (buy/sell - 1)·25 |
| Signals.NewsValue | trading_client.py:68-71 | `int(news)`, with 50 for an absent field (the `'50'` default at line 203) or a `ValueError` |
| Signals.NewsFactor | trading_client.py:73-76 | the news term after the two reassignments of lines 73-74; its values are `NewsFactorCollapse` and `NewsFactorInRange` |
| Signals.VolumeFactor | trading_client.py:52-56 | +25 iff the volume is HIGH, -25 iff LOW, 0 for NORMAL, and within [-25, 25] |
| Signals.Clamp100 | trading_client.py:87 | the result lies in [-100, 100], equals its argument when that already does, and saturates at 100 above and -100 below |
| Signals.RawSentiment | trading_client.py:49-87 | the sum of momentum, volume, trend, news and ratio terms before the clamp; `Clamp100` and `Sentiment` bound it |
| Signals.Sentiment | trading_client.py:43-88 | 0 without a price average; a division-by-zero error exactly when the average is 0; otherwise a value in [-100, 100] |
| Signals.SentimentMonotoneInPrice | trading_client.py:49-88 | with everything else fixed and a positive average, a higher price never lowers the sentiment |
| Signals.SentimentOfTerms | trading_client.py:49-88 | with a non-zero average, the sentiment is the sum of the momentum, volume, trend, news and ratio terms, clamped to [-100, 100] and rounded to cents |
| Signals.RisingPricesSentiment | trading_client.py:49-88 | prices 10..14 against an average of 12, NORMAL volume, no news and no sell average give a sentiment of 41.67 |
| Sizing.MinReal | trading_client.py:99 | Python's `min` on two reals |
| Sizing.MinInt | trading_client.py:109-114 | Python's `min` on two integers |
| Sizing.MaxInt | trading_client.py:110-117 | Python's `max` on two integers |
| Sizing.Weight | trading_client.py:96 | `sentiment_weight` is never negative and at most 1 for a sentiment in [-100, 100] |
| Sizing.CapitalFraction | trading_client.py:96-99 | the capital share invested lies between 10% and 50% |
| Sizing.MaxQuantity | trading_client.py:102-103 | `int(capital · fraction / price)`; its budget bound is `MaxQuantityWithinBudget` |
| Sizing.ScaledQuantity | trading_client.py:106-110 | `max(int(max_quantity · weight), min_quantity)`; its budget bound is `ScaledQuantityWithinBudget` |
| Sizing.BaseQuantity | trading_client.py:96-110 | the quantity before the SELL and BUY adjustments, None at price 0; bounded by the `BaseQuantity…` lemmas |
| Sizing.MinQuantity | trading_client.py:109 | `min(1, …)` makes the minimum quantity at most one share |
| Sizing.TradeQuantity | trading_client.py:90-119 | 0 for WAIT; an error exactly for BUY/SELL at price 0; a SELL never exceeds the holding; a BUY the capital cannot cover is at least 10000 |
| Sizing.BaseQuantityAtLeastOne | trading_client.py:103-110 | for a price in (0, 10000] the quantity before the SELL and BUY adjustments is at least 1 |
| Sizing.MinQuantityAboveTenThousand | trading_client.py:109 | above a price of 10000 the minimum quantity is 0 |
| Sizing.BaseQuantityNonNegative | trading_client.py:106-110 | at a positive price the minimum is 0 or 1 and the quantity is never negative |
| Sizing.BaseQuantityNegativePrice | trading_client.py:102-110 | at a negative price, with non-negative capital, the quantity is never positive |
| Sizing.MaxQuantityWithinBudget | trading_client.py:99-103 | `max_quantity` is non-negative and costs at most half the capital |
| Sizing.TruncScaledWithin | trading_client.py:106 | scaling `max_quantity` by the sentiment weight stays between 0 and `max_quantity` |
| Sizing.ScaledQuantityWithinBudget | trading_client.py:106-110 | the scaled quantity is the one-share minimum or costs at most half the capital |
| Sizing.BaseQuantityWithinBudget | trading_client.py:96-110 | for a bounded sentiment the quantity before adjustments is the one-share minimum or within half the capital |
| Sizing.MaxQuantityNegativePrice | trading_client.py:102-103 | at a negative price, non-negative capital gives a non-positive `max_quantity` |
| Sizing.TruncScaledNonPositive | trading_client.py:106 | scaling a non-positive `max_quantity` by the weight stays non-positive |
| Sizing.TradeQuantityBuyAtLeastBase | trading_client.py:116-117 | a BUY is never sized below the quantity of lines 96-110; line 117 only raises it |
| Sizing.SellCappedByHolding | trading_client.py:96-114 | a SELL sells the quantity of lines 96-110, capped at the holding |
| Sizing.BuyAffordableIsBase | trading_client.py:96-119 | a BUY whose cost the capital covers is exactly the quantity of lines 96-110 |
| Sizing.SellAtLeastOne | trading_client.py:103-114 | with at least one share held and a price in (0, 10000], a SELL sells between one share and the whole holding |
| Sizing.BuyWithinBudgetOrBumped | trading_client.py:96-117 | for a bounded sentiment and non-negative capital, a BUY is the one-share minimum or costs at most half the capital, unless the capital does not cover one share and it is bumped to at least 10000 |
| Sizing.SellNeedsPositivePrice | trading_client.py:102-114 | with non-negative capital, a positive SELL quantity implies a positive price |
| Ledger.Fill | trading_client.py:210-217 | WAIT or a non-positive quantity changes nothing; a BUY costing more than the capital changes nothing |
| Ledger.FillConservesValue | trading_client.py:210-217 | cash plus holdings marked at the fill price is unchanged by the fill |
| Ledger.FillKeepsLedgerNonNegative | trading_client.py:210-217 | non-negative capital and holdings stay non-negative when a SELL is at a non-negative price and within the holding |
| Ledger.FillSellTaken | trading_client.py:215-217 | a SELL of a positive quantity debits exactly those shares and credits exactly price · quantity |
| Ledger.Holding | trading_client.py:17 | `portfolio[symbol]` of a `defaultdict(int)`: 0 for a symbol never traded |
| Ledger.History | trading_client.py:13-21 | a `defaultdict(list)` read: the empty history for a symbol never seen |
| Ledger.MarkedValue | trading_client.py:250-251 | one step of the valuation loop: shares times the last price, 0 without a price |
| Ledger.MarkedTotal | trading_client.py:248-251 | the sum of `MarkedValue` over a set of symbols; order-independent by `MarkedTotalRemove` |
| Ledger.FillBuyTaken | trading_client.py:210-214 | an affordable BUY adds exactly the quantity and debits exactly its cost, leaving capital ≥ 0 |
| Ledger.MarkedTotalRemove | trading_client.py:248-251 | the valuation sum does not depend on the order in which symbols are visited |
| Ledger.MarkedTotalNonNegative | trading_client.py:248-251 | without short holdings and with non-negative prices the marked total is never negative |
| Client.OrderFor | trading_client.py:237-245 | an order exists iff the signal is BUY or SELL with a positive quantity; it carries the tick's symbol and price, the decided quantity, exchange "3", and side "B" iff BUY and "S" iff SELL |
| Client.OrderMatchesFill | trading_client.py:210-245 | a SELL order is exactly the shares and proceeds the fill moved; a BUY order is the shares and cost the fill moved, or, when it costs more than the capital, a trade that did not take place |
| Client.ReportFor | trading_client.py:219-231 | the row carries the tick's symbol, price and quantity, the price average, sentiment, signal and trade quantity, the post-fill holding, the post-fill capital rounded to cents, and the order |
| Client.Append | trading_client.py:173-181 | the symbol becomes a key; its history gains exactly the entries at the end; every other symbol's history is unchanged |
| Client.SideOf | trading_client.py:177 | `message.get("Side", "B")` |
| Client.VolumeEntry | trading_client.py:177-181 | one entry, the tick's quantity, exactly when the tick's side is the given one; otherwise none |
| Client.Evaluate | trading_client.py:184-207 | an error exactly when the price average is 0 or a BUY/SELL meets price 0; the decision's price average is the window average; sentiment in [-100, 100]; short history gives WAIT, 0, 0; a SELL is within the holding |
| Client.EvaluateFollowsRules | trading_client.py:184-207 | a decision is the volume class of the tick against the quantity average, the signal of the price average and that class, their sentiment, and the sizer's quantity with the pre-tick capital and holding |
| Client.EvaluateThenFillKeepsLedger | trading_client.py:184-217 | whatever is decided, the fill leaves a non-negative holding, and non-negative capital stays non-negative |
| Client.RisingPricesAverage | trading_client.py:37-41 | a window of five over prices 10..14 averages to 12 |
| Client.RisingPricesScenario | trading_client.py:166-245 | five ticks at prices 10..14 with quantity 100: price average 12, NORMAL volume, BUY with a rising trend, and an order for at least one share |
| Client.ConstantVolumeIsNormal | trading_client.py:121-128 | a constant traded quantity is NORMAL against its own moving average |
| Client.FinanceClient.constructor | trading_client.py:9-21 | empty histories and portfolio, capital equal to the initial capital, the given window |
| Client.FinanceClient.Record | trading_client.py:173-189 | price and quantity histories always gain the tick; buy volumes only for side "B" (the default), sell volumes only for side "S"; other symbols untouched |
| Client.FinanceClient.ApplyFill | trading_client.py:210-217 | capital and the symbol's holding become those of `Fill`; no other holding changes |
| Client.FinanceClient.Act | trading_client.py:191-245 | on an error nothing changes; otherwise the ledger is the fill of the decision from the pre-tick capital and holding, the outcome is its report, holdings stay non-negative and non-negative capital stays so |
| Client.FinanceClient.ProcessTick | trading_client.py:166-245 | the whole tick: the history appends of `Record`, then the ledger and outcome of `Act` over the appended histories |
| Client.FinanceClient.TotalValue | trading_client.py:248-251 | the loop's total is the capital plus the marked value of every held symbol |
| OrderIntake.IsSpace | tcp_server.py:66 | the characters Python's `str.isspace` accepts, the set `strip()` removes |
| OrderIntake.StripStart | tcp_server.py:66 | the result is no longer than the input, does not start with whitespace, and what was cut is all whitespace |
| OrderIntake.StripEnd | tcp_server.py:66 | the result is no longer than the input, does not end with whitespace, and what was cut is all whitespace |
| OrderIntake.StripStartIsSuffix | tcp_server.py:66 | removing leading whitespace keeps a suffix |
| OrderIntake.StripEndIsPrefix | tcp_server.py:66 | removing trailing whitespace keeps a prefix |
| OrderIntake.Strip | tcp_server.py:66 | `str.strip()`; described by the `Strip…` lemmas |
| OrderIntake.StripIsSlice | tcp_server.py:69 | `strip()` keeps one contiguous slice of the line |
| OrderIntake.StripCutsWhitespace | tcp_server.py:66 | everything `strip()` drops on either side is whitespace |
| OrderIntake.StripEndsNonSpace | tcp_server.py:69 | a non-empty stripped line starts and ends with a non-whitespace character |
| OrderIntake.StripEmptyIffBlank | tcp_server.py:66-67 | a line is skipped exactly when every character in it is whitespace |
| OrderIntake.StripIdempotent | tcp_server.py:69 | stripping twice equals stripping once |
| OrderIntake.FirstNewline | tcp_server.py:65 | `split("\n", 1)` cuts at a newline with no newline before it |
| OrderIntake.Split | tcp_server.py:64-65 | repeated `buffer.split("\n", 1)` while a newline remains: the lines cut off and the leftover; described by the `Split…` lemmas |
| OrderIntake.Join | tcp_server.py:64-65 | lines each followed by a newline; `SplitJoin` and `SplitReassembles` make it the inverse of `Split` |
| OrderIntake.SplitReassembles | tcp_server.py:63-65 | the lines, each followed by a newline, then the leftover, give back the buffer |
| OrderIntake.SplitHasNoNewlines | tcp_server.py:64-65 | no extracted line and not the leftover contains a newline |
| OrderIntake.SplitJoin | tcp_server.py:64-65 | splitting newline-free lines joined with newlines onto a newline-free rest gives back exactly those lines and that rest |
| OrderIntake.JoinConcat | tcp_server.py:63-65 | joining two runs of lines is joining each in turn |
| OrderIntake.SplitAppend | tcp_server.py:63-65 | appending a chunk extracts the old lines, then the lines of the old leftover followed by the chunk: chunk boundaries never change the lines |
| OrderIntake.LineEvents | tcp_server.py:66-73 | a blank line produces nothing; any other line produces one event: accepted with its stripped text iff that parses, else rejected with the raw line |
| OrderIntake.Events | tcp_server.py:64-73 | the events of a run of lines, in order; described by `EventsAppend` and `EventsAreParsedLines` |
| OrderIntake.EventsAppend | tcp_server.py:64-73 | the events of consecutive lines are the events of each in order: a line that fails to parse does not stop the later ones |
| OrderIntake.EventsAreParsedLines | tcp_server.py:66-73 | at most one event per line; every accepted order is non-blank, stripped and parses; every rejected line is one of the lines |
| OrderIntake.Stops | tcp_server.py:61-62 | a receipt ends the loop when it is empty (`if not data: break`) or a failure (the handler at lines 74-76) |
| OrderIntake.Concat | tcp_server.py:63 | all appended text, in arrival order |
| OrderIntake.Delivered | tcp_server.py:59-62 | the texts appended are the non-empty receipts before the first empty or failed one, in order, and they run up to that receipt or to the end |
| OrderIntake.TakeLines | tcp_server.py:64-73 | the inner loop leaves the leftover of `Split` with no newline and logs the events of the complete lines in order; a buffer without a newline logs nothing and stays whole |
| OrderIntake.HandleOrderClient | tcp_server.py:57-73 | the logged events are those of the complete lines of all text received before the loop stopped, and the final buffer is the unterminated remainder |

## Left out

- Sockets and I/O are not modelled. This covers `connect_order_socket`, `send_order`, `sock.recv`, `client.close()`, the CSV writer, `print`, `datetime.now()` and `argparse`. The order is returned in the report instead of being sent, and the printed orders become logged events.
- The client's decoding of raw chunks into ticks is not modelled (`json.loads`, `float(Price)`, `int(Quantity)`, a missing key). A tick arrives already decoded.
- Thread-per-connection concurrency is not modelled.
- `train_xgboost.py` is not part of this model.
- Floating point is not modelled: values are exact reals. `Round2` rounds the exact value half to even. Python's `round` on a binary float can differ at ties (`round(2.675, 2)` is 2.67). `TotalValue` sums in any order, which with floats could change the last bits.
- Client.FinanceClient.constructor: requires a positive window. Python accepts 0 and later fails with a division by zero in `calculate_moving_average`. A negative window reads an unintended slice.
- Statistics.MovingAverage: requires a positive window, for the same reason.
- Signals.Sentiment: a `News` field that `int()` rejects with `TypeError` (JSON null, a list) escapes the `except ValueError`. It would become a processing error. The model's news is absent, an integer, or malformed (the `ValueError` case).
- Overflow to infinity, NaN prices, and `OverflowError` from `int()` of an infinite float are not modelled. With exact reals, division by zero is the only way the tick step fails.
- The profit/loss subtraction at trading_client.py:252 only feeds the printout, and is not modelled.
- The order's string fields (`str(trade_quantity)`, `str(price)`) are kept as numbers.
- The report's "Calculating..." placeholder is kept as `None`.
- JSON parsing in the order server is the parameter `parses`, a predicate on the stripped line.
- UTF-8 decoding and the 1024-byte chunk size are not modelled. A chunk that fails to decode, or any exception while receiving, is the `Failed` receipt, which ends the loop.
- Client.FinanceClient.TotalValue: Python's read of `self.price_history[sym]` would insert an empty list for a held symbol with no prices. The model leaves the map unchanged. Holdings only arise from ticks, which append prices first, so no such symbol exists.
- OrderIntake.HandleOrderClient: `parses` is boolean, so a line either parses or is logged as invalid, and the loop goes on. Only `json.JSONDecodeError` is caught at tcp_server.py:72. A `RecursionError` from `json.loads` on a deeply nested line, or a `UnicodeEncodeError` from the `print` at line 70 (an order holding a lone surrogate), reaches the `except Exception` at lines 74-76 and ends the connection. The model does not capture that early end.

=== FILE: client.dfy ===
/**
 * `FinanceClient` (trading_client.py): the per-symbol histories, the
 * capital/portfolio ledger, and the per-tick decision step of `run`.
 */
module Client {
  import opened Options
  import opened Rounding
  import opened Statistics
  import opened Signals
  import opened Sizing
  import opened Ledger

  /**
   * One decoded market message: `Symbol`, `float(Price)`, `int(Quantity)`,
   * the optional `Side` and the `News` field after `int(news)`.
   */
  datatype Tick = Tick(symbol: string, price: real, quantity: int, side: Option<string>, news: News)

  /** What the analysis derives from the histories for one tick. */
  datatype Decision = Decision(priceMa: Option<real>, volume: Volume, signal: Signal, sentiment: real, quantity: int)

  /** The message sent to the order server (its `Exchange` is always "3"). */
  datatype Order = Order(symbol: string, exchange: string, quantity: int, side: string, price: real)

  /** The result row of a processed tick, with the order it emits, if any. */
  datatype Report = Report(symbol: string, price: real, priceMa: Option<real>, quantity: int,
                           sentiment: real, signal: Signal, tradeQuantity: int,
                           portfolio: int, capital: real, order: Option<Order>)

  /**
   * Lines 237-245: the order sent for a BUY or SELL of a positive quantity,
   * whether or not the fill above took place.
   */
  function OrderFor(tick: Tick, d: Decision): (r: Option<Order>)
    ensures r.Some? <==> d.signal != Wait && d.quantity > 0
    ensures r.Some? ==> (r.value.quantity > 0 && r.value.exchange == "3"
      && (r.value.side == "B" <==> d.signal == Buy) && (r.value.side == "S" <==> d.signal == Sell))
    ensures r.Some? ==> r.value.symbol == tick.symbol && r.value.quantity == d.quantity && r.value.price == tick.price
  {
    if d.signal != Wait && d.quantity > 0
    then Some(Order(tick.symbol, "3", d.quantity, if d.signal == Buy then "B" else "S", tick.price))
    else None
  }

  /**
   * The order sent agrees with the fill it follows: a SELL order is exactly
   * the shares and proceeds the fill moved, and a BUY order is either the
   * shares and cost the fill moved or, when the capital did not cover it,
   * an order for a trade that never took place.
   */
  lemma OrderMatchesFill(tick: Tick, d: Decision, p: Position)
    requires OrderFor(tick, d).Some?
    ensures var o := OrderFor(tick, d).value;
      var q := Fill(d.signal, tick.price, d.quantity, p);
      && (o.side == "S" ==> q == Position(p.capital + o.price * o.quantity as real, p.shares - o.quantity))
      && (o.side == "B" ==> q == p || q == Position(p.capital - o.price * o.quantity as real, p.shares + o.quantity))
      && (o.side == "B" && o.price * o.quantity as real > p.capital ==> q == p)
  {
    var o := OrderFor(tick, d).value;
    assert o.price == tick.price && o.quantity == d.quantity;
    if d.signal == Sell {
      FillSellTaken(tick.price, d.quantity, p);
    } else if o.price * o.quantity as real <= p.capital {
      FillBuyTaken(tick.price, d.quantity, p);
    }
  }

  /** The result row of lines 219-231 for a tick whose fill left position `p`. */
  function ReportFor(tick: Tick, d: Decision, p: Position): (r: Report)
    ensures r.symbol == tick.symbol && r.price == tick.price && r.signal == d.signal
    ensures r.portfolio == p.shares && r.capital == Round2(p.capital)
    ensures r.priceMa == d.priceMa && r.quantity == tick.quantity
    ensures r.sentiment == d.sentiment && r.tradeQuantity == d.quantity
    ensures r.order == OrderFor(tick, d)
  {
    Report(tick.symbol, tick.price, d.priceMa, tick.quantity, d.sentiment, d.signal, d.quantity,
           p.shares, Round2(p.capital), OrderFor(tick, d))
  }

  /** A history map with `entries` appended to `symbol`'s list; reading inserts the key. */
  function Append(histories: map<string, seq<real>>, symbol: string, entries: seq<real>): (r: map<string, seq<real>>)
    ensures r.Keys == histories.Keys + {symbol}
    ensures History(r, symbol) == History(histories, symbol) + entries
    ensures forall other :: other != symbol ==> History(r, other) == History(histories, other)
  {
    histories[symbol := History(histories, symbol) + entries]
  }

  /** The volume entry a tick adds to the `side` history: its quantity when its side matches. */
  function VolumeEntry(tick: Tick, side: string): (r: seq<real>)
    ensures r != [] <==> SideOf(tick) == side
    ensures r == [] || r == [tick.quantity as real]
  {
    if SideOf(tick) == side then [tick.quantity as real] else []
  }

  /** A tick is either processed, or dropped by the `except Exception` at line 271. */
  datatype Outcome = Processed(report: Report) | ProcessingError

  /** `message.get("Side", "B")`. */
  function SideOf(tick: Tick): string
  {
    match tick.side
    case None => "B"
    case Some(s) => s
  }

  /**
   * Lines 184-207, given the symbol's histories after the tick was appended.
   * None is the ZeroDivisionError of `price / price_ma` (a zero average)
   * or of `max_investment / price` (a zero price with a BUY or SELL signal).
   */
  function Evaluate(w: nat, prices: seq<real>, quantities: seq<real>, buys: seq<real>, sells: seq<real>,
                    tick: Tick, capital: real, holdings: int): (r: Option<Decision>)
    requires w > 0
    ensures r.None? <==>
      MovingAverage(prices, w) == Some(0.0)
      || (DecideSignal(tick.price, MovingAverage(prices, w),
                       AnalyzeVolume(tick.quantity, MovingAverage(quantities, w))) != Wait && tick.price == 0.0)
    ensures r.Some? ==> r.value.priceMa == MovingAverage(prices, w)
    ensures r.Some? ==> -100.0 <= r.value.sentiment <= 100.0
    ensures r.Some? && |prices| < w ==> r.value.signal == Wait && r.value.sentiment == 0.0 && r.value.quantity == 0
    ensures r.Some? && r.value.signal == Sell ==> r.value.quantity <= holdings
  {
    var priceMa := MovingAverage(prices, w);
    var quantityMa := MovingAverage(quantities, w);
    var buyMa := MovingAverage(buys, w);
    var sellMa := MovingAverage(sells, w);
    var volume := AnalyzeVolume(tick.quantity, quantityMa);
    var signal := DecideSignal(tick.price, priceMa, volume);
    match Sentiment(tick.price, priceMa, volume, prices, tick.news, buyMa, sellMa)
    case None => None
    case Some(sentiment) =>
      match TradeQuantity(tick.price, sentiment, signal, capital, holdings)
      case None => None
      case Some(quantity) => Some(Decision(priceMa, volume, signal, sentiment, quantity))
  }

  /**
   * A decision is the one the signal engine's rules give: the volume class of
   * the tick against the quantity average, the signal from the price average
   * and that class, the sentiment of those, and the quantity the sizer gives
   * for that signal and sentiment with the capital and holding before the tick.
   */
  lemma EvaluateFollowsRules(w: nat, prices: seq<real>, quantities: seq<real>, buys: seq<real>,
                             sells: seq<real>, tick: Tick, capital: real, holdings: int)
    requires w > 0
    ensures var r := Evaluate(w, prices, quantities, buys, sells, tick, capital, holdings);
      r.Some? ==> var d := r.value;
      && d.volume == AnalyzeVolume(tick.quantity, MovingAverage(quantities, w))
      && d.signal == DecideSignal(tick.price, d.priceMa, d.volume)
      && Sentiment(tick.price, d.priceMa, d.volume, prices, tick.news,
                   MovingAverage(buys, w), MovingAverage(sells, w)) == Some(d.sentiment)
      && TradeQuantity(tick.price, d.sentiment, d.signal, capital, holdings) == Some(d.quantity)
  {
  }

  /**
   * The ledger invariants hold across a tick: whatever the analysis decides,
   * the fill never leaves a short holding, and it keeps the capital
   * non-negative when it started non-negative.
   */
  lemma EvaluateThenFillKeepsLedger(w: nat, prices: seq<real>, quantities: seq<real>, buys: seq<real>,
                                    sells: seq<real>, tick: Tick, capital: real, holdings: int)
    requires w > 0 && 0 <= holdings
    ensures var r := Evaluate(w, prices, quantities, buys, sells, tick, capital, holdings);
      r.Some? ==>
        var p := Fill(r.value.signal, tick.price, r.value.quantity, Position(capital, holdings));
        && 0 <= p.shares
        && (0.0 <= capital ==> 0.0 <= p.capital)
  {
    var r := Evaluate(w, prices, quantities, buys, sells, tick, capital, holdings);
    if r.None? {
      return;
    }
    var d := r.value;
    if 0.0 <= capital {
      if d.signal == Sell && d.quantity > 0 {
        SellNeedsPositivePrice(tick.price, d.sentiment, capital, holdings);
      }
      FillKeepsLedgerNonNegative(d.signal, tick.price, d.quantity, Position(capital, holdings));
    }
  }

  /** Window 5 over prices 10..14: the moving average is 12. */
  lemma RisingPricesAverage()
    ensures MovingAverage([10.0, 11.0, 12.0, 13.0, 14.0], 5) == Some(12.0)
  {
    var s := [10.0, 11.0, 12.0, 13.0, 14.0];
    assert Sum(s[..1]) == 10.0;
    assert s[..2][..1] == s[..1];
    assert Sum(s[..2]) == 21.0;
    assert s[..3][..2] == s[..2];
    assert Sum(s[..3]) == 33.0;
    assert s[..4][..3] == s[..3];
    assert Sum(s[..4]) == 46.0;
    assert s[..5] == s;
    assert Sum(s) / 5.0 == 1200 as real / 100.0;
    MovingAverageFullHistory(s, 5);
    Round2Cents(1200);
  }

  /**
   * Five ticks of one symbol at rising prices 10..14 with a constant
   * quantity of 100 and no side: on the fifth, the price average is 12, the
   * volume is NORMAL, the signal is BUY with a rising trend, and an order
   * for at least one share is sent.
   */
  lemma RisingPricesScenario(capital: real, holdings: int)
    ensures var prices := [10.0, 11.0, 12.0, 13.0, 14.0];
      var quantities := [100.0, 100.0, 100.0, 100.0, 100.0];
      var tick := Tick("X", 14.0, 100, None, Absent);
      var d := Evaluate(5, prices, quantities, quantities, [], tick, capital, holdings);
      && d.Some?
      && d.value.priceMa == Some(12.0) && d.value.volume == Normal && d.value.signal == Buy
      && TrendFactor(prices) == 25.0
      && d.value.quantity >= 1 && OrderFor(tick, d.value).Some?
  {
    var prices := [10.0, 11.0, 12.0, 13.0, 14.0];
    var quantities := [100.0, 100.0, 100.0, 100.0, 100.0];
    var tick := Tick("X", 14.0, 100, None, Absent);
    var priceMa, quantityMa := MovingAverage(prices, 5), MovingAverage(quantities, 5);
    assert priceMa == Some(12.0) by { RisingPricesAverage(); }
    var volume := AnalyzeVolume(100, quantityMa);
    assert volume == Normal by { ConstantVolumeIsNormal(100, quantities, 5); }
    var sentiment := Sentiment(14.0, priceMa, volume, prices, Absent, quantityMa, MovingAverage([], 5));
    assert sentiment.Some?;
    var quantity := TradeQuantity(14.0, sentiment.value, Buy, capital, holdings);
    assert quantity.Some? && quantity.value >= 1 by {
      BaseQuantityAtLeastOne(14.0, sentiment.value, capital);
      TradeQuantityBuyAtLeastBase(14.0, sentiment.value, capital, holdings);
    }
    assert Evaluate(5, prices, quantities, quantities, [], tick, capital, holdings)
        == Some(Decision(priceMa, volume, Buy, sentiment.value, quantity.value));
  }

  /** A constant traded quantity is NORMAL volume against its own moving average. */
  lemma ConstantVolumeIsNormal(q: nat, history: seq<real>, w: nat)
    requires 0 < w <= |history|
    requires forall i :: 0 <= i < |history| ==> history[i] == q as real
    ensures AnalyzeVolume(q, MovingAverage(history, w)) == Normal
  {
    MovingAverageConstant(history, w, q as real);
    Round2Cents(100 * q);
    assert (100 * q) as real / 100.0 == q as real;
  }

  class FinanceClient {
    const windowSize: nat
    const initialCapital: real
    var priceHistory: map<string, seq<real>>
    var quantityHistory: map<string, seq<real>>
    var buyVolumeHistory: map<string, seq<real>>
    var sellVolumeHistory: map<string, seq<real>>
    var portfolio: map<string, int>
    var availableCapital: real

    /** The window is positive and no holding is ever short. */
    ghost predicate Valid()
      reads this
    {
      windowSize > 0 && forall s :: s in portfolio ==> portfolio[s] >= 0
    }

    constructor (windowSize: nat, initialCapital: real)
      requires windowSize > 0
      ensures Valid()
      ensures this.windowSize == windowSize && this.initialCapital == initialCapital
      ensures availableCapital == initialCapital && portfolio == map[]
      ensures priceHistory == map[] && quantityHistory == map[]
      ensures buyVolumeHistory == map[] && sellVolumeHistory == map[]
    {
      this.windowSize := windowSize;
      this.initialCapital := initialCapital;
      availableCapital := initialCapital;
      portfolio := map[];
      priceHistory, quantityHistory := map[], map[];
      buyVolumeHistory, sellVolumeHistory := map[], map[];
    }

    /** Lines 173-189: append the tick to its symbol's histories; other symbols are untouched. */
    method Record(tick: Tick)
      modifies this`priceHistory, this`quantityHistory, this`buyVolumeHistory, this`sellVolumeHistory
      ensures priceHistory == Append(old(priceHistory), tick.symbol, [tick.price])
      ensures quantityHistory == Append(old(quantityHistory), tick.symbol, [tick.quantity as real])
      ensures buyVolumeHistory == Append(old(buyVolumeHistory), tick.symbol, VolumeEntry(tick, "B"))
      ensures sellVolumeHistory == Append(old(sellVolumeHistory), tick.symbol, VolumeEntry(tick, "S"))
    {
      var symbol := tick.symbol;
      priceHistory := priceHistory[symbol := History(priceHistory, symbol) + [tick.price]];
      quantityHistory := quantityHistory[symbol := History(quantityHistory, symbol) + [tick.quantity as real]];
      var side := SideOf(tick);
      // Lines 188-189 read both volume lists, which inserts the symbol into both defaultdicts.
      var buys, sells := History(buyVolumeHistory, symbol), History(sellVolumeHistory, symbol);
      if side == "B" {
        buys := buys + [tick.quantity as real];
      } else if side == "S" {
        sells := sells + [tick.quantity as real];
      }
      assert buys == History(old(buyVolumeHistory), symbol) + VolumeEntry(tick, "B");
      assert sells == History(old(sellVolumeHistory), symbol) + VolumeEntry(tick, "S");
      buyVolumeHistory := buyVolumeHistory[symbol := buys];
      sellVolumeHistory := sellVolumeHistory[symbol := sells];
    }

    /**
     * Lines 210-217 and the read of line 229: the simulated fill for one
     * symbol, which also leaves the symbol as a key of `portfolio`.
     */
    method ApplyFill(symbol: string, signal: Signal, price: real, quantity: int)
      modifies this`portfolio, this`availableCapital
      ensures var p := Fill(signal, price, quantity, Position(old(availableCapital), Holding(old(portfolio), symbol)));
        availableCapital == p.capital && portfolio == old(portfolio)[symbol := p.shares]
    {
      var holdings := Holding(portfolio, symbol);
      if signal == Buy && quantity > 0 {
        var cost := price * quantity as real;
        if cost <= availableCapital {
          portfolio := portfolio[symbol := holdings + quantity];
          availableCapital := availableCapital - cost;
        }
      } else if signal == Sell && quantity > 0 {
        portfolio := portfolio[symbol := holdings - quantity];
        availableCapital := availableCapital + price * quantity as real;
      }
      portfolio := portfolio[symbol := Holding(portfolio, symbol)];
    }

    /**
     * Lines 191-245 once the tick is recorded: analyse the symbol's
     * histories, fill the decided trade and report it. On a division by
     * zero nothing changes.
     */
    method Act(tick: Tick) returns (outcome: Outcome)
      requires Valid()
      modifies this`portfolio, this`availableCapital
      ensures Valid()
      ensures old(availableCapital) >= 0.0 ==> availableCapital >= 0.0
      ensures var d := Evaluate(windowSize, History(priceHistory, tick.symbol), History(quantityHistory, tick.symbol),
                                History(buyVolumeHistory, tick.symbol), History(sellVolumeHistory, tick.symbol),
                                tick, old(availableCapital), Holding(old(portfolio), tick.symbol));
        && (d.None? ==> outcome == ProcessingError && portfolio == old(portfolio)
                        && availableCapital == old(availableCapital))
        && (d.Some? ==>
              var p := Fill(d.value.signal, tick.price, d.value.quantity,
                            Position(old(availableCapital), Holding(old(portfolio), tick.symbol)));
              && availableCapital == p.capital
              && portfolio == old(portfolio)[tick.symbol := p.shares]
              && outcome == Processed(ReportFor(tick, d.value, p)))
    {
      var capital, holdings := availableCapital, Holding(portfolio, tick.symbol);
      var prices, quantities := History(priceHistory, tick.symbol), History(quantityHistory, tick.symbol);
      var buys, sells := History(buyVolumeHistory, tick.symbol), History(sellVolumeHistory, tick.symbol);
      var decision := Evaluate(windowSize, prices, quantities, buys, sells, tick, capital, holdings);
      if decision.None? {
        outcome := ProcessingError;
        return;
      }
      var d := decision.value;
      EvaluateThenFillKeepsLedger(windowSize, prices, quantities, buys, sells, tick, capital, holdings);
      ghost var p := Fill(d.signal, tick.price, d.quantity, Position(capital, holdings));
      ApplyFill(tick.symbol, d.signal, tick.price, d.quantity);
      assert portfolio == old(portfolio)[tick.symbol := p.shares];
      assert Valid();
      outcome := Processed(ReportFor(tick, d, Position(availableCapital, portfolio[tick.symbol])));
    }

    /**
     * One pass of the body of the receive loop (lines 168-245) for an
     * already decoded tick. The histories are appended first, so they stay
     * appended when the analysis fails with a division by zero; the
     * analysis sees the capital and holdings from before the tick.
     */
    method ProcessTick(tick: Tick) returns (outcome: Outcome)
      requires Valid()
      modifies this
      ensures Valid()
      ensures priceHistory == Append(old(priceHistory), tick.symbol, [tick.price])
      ensures quantityHistory == Append(old(quantityHistory), tick.symbol, [tick.quantity as real])
      ensures buyVolumeHistory == Append(old(buyVolumeHistory), tick.symbol, VolumeEntry(tick, "B"))
      ensures sellVolumeHistory == Append(old(sellVolumeHistory), tick.symbol, VolumeEntry(tick, "S"))
      ensures old(availableCapital) >= 0.0 ==> availableCapital >= 0.0
      ensures var d := Evaluate(windowSize, History(priceHistory, tick.symbol), History(quantityHistory, tick.symbol),
                                History(buyVolumeHistory, tick.symbol), History(sellVolumeHistory, tick.symbol),
                                tick, old(availableCapital), Holding(old(portfolio), tick.symbol));
        && (d.None? ==> outcome == ProcessingError && portfolio == old(portfolio)
                        && availableCapital == old(availableCapital))
        && (d.Some? ==>
              var p := Fill(d.value.signal, tick.price, d.value.quantity,
                            Position(old(availableCapital), Holding(old(portfolio), tick.symbol)));
              && availableCapital == p.capital
              && portfolio == old(portfolio)[tick.symbol := p.shares]
              && outcome == Processed(ReportFor(tick, d.value, p)))
    {
      Record(tick);
      outcome := Act(tick);
    }

    /** Lines 248-251: available capital plus every holding marked at its symbol's last price. */
    method TotalValue() returns (total: real)
      ensures total == availableCapital + MarkedTotal(portfolio.Keys, portfolio, priceHistory)
    {
      total := availableCapital;
      var pending := portfolio.Keys;
      while pending != {}
        invariant pending <= portfolio.Keys
        invariant total + MarkedTotal(pending, portfolio, priceHistory)
               == availableCapital + MarkedTotal(portfolio.Keys, portfolio, priceHistory)
        decreases pending
      {
        var symbol :| symbol in pending;
        MarkedTotalRemove(pending, symbol, portfolio, priceHistory);
        total := total + MarkedValue(symbol, portfolio, priceHistory);
        pending := pending - {symbol};
      }
    }
  }
}

=== FILE: ledger.dfy ===
/**
 * The simulated fill of `FinanceClient` (trading_client.py:210-217) and the
 * portfolio valuation of lines 248-251.
 */
module Ledger {
  import opened Signals

  /** One symbol's slice of the ledger: the available capital and the shares held. */
  datatype Position = Position(capital: real, shares: int)

  /**
   * Apply a fill: a BUY is taken only when its cost fits the available
   * capital; a SELL always debits the shares and credits the proceeds.
   */
  function Fill(signal: Signal, price: real, quantity: int, p: Position): (r: Position)
    ensures signal == Wait || quantity <= 0 ==> r == p
    ensures signal == Buy && price * quantity as real > p.capital ==> r == p
  {
    if signal == Buy && quantity > 0 then
      var cost := price * quantity as real;
      if cost <= p.capital then Position(p.capital - cost, p.shares + quantity) else p
    else if signal == Sell && quantity > 0 then
      Position(p.capital + price * quantity as real, p.shares - quantity)
    else p
  }

  /** Cash plus shares marked at the fill price is the same before and after the fill. */
  lemma FillConservesValue(signal: Signal, price: real, quantity: int, p: Position)
    ensures var r := Fill(signal, price, quantity, p);
      r.capital + r.shares as real * price == p.capital + p.shares as real * price
  {
    var q := quantity as real;
    assert (p.shares + quantity) as real * price == p.shares as real * price + q * price;
    assert (p.shares - quantity) as real * price == p.shares as real * price - q * price;
  }

  /**
   * The ledger invariants survive a fill: capital stays non-negative as long
   * as a SELL happens at a non-negative price, and shares stay non-negative
   * as long as a SELL never exceeds the holding.
   */
  lemma FillKeepsLedgerNonNegative(signal: Signal, price: real, quantity: int, p: Position)
    requires 0.0 <= p.capital && 0 <= p.shares
    requires signal == Sell && quantity > 0 ==> 0.0 <= price && quantity <= p.shares
    ensures 0.0 <= Fill(signal, price, quantity, p).capital
    ensures 0 <= Fill(signal, price, quantity, p).shares
  {
    if signal == Sell && quantity > 0 {
      assert 0.0 <= price * quantity as real;
    }
  }

  /** A BUY that is taken buys exactly `quantity` shares and spends exactly their cost. */
  lemma FillBuyTaken(price: real, quantity: int, p: Position)
    requires quantity > 0 && price * quantity as real <= p.capital
    ensures Fill(Buy, price, quantity, p) == Position(p.capital - price * quantity as real, p.shares + quantity)
    ensures 0.0 <= Fill(Buy, price, quantity, p).capital
  {
  }

  /** A SELL of a positive quantity debits exactly those shares and credits exactly their proceeds. */
  lemma FillSellTaken(price: real, quantity: int, p: Position)
    requires quantity > 0
    ensures Fill(Sell, price, quantity, p) == Position(p.capital + price * quantity as real, p.shares - quantity)
  {
  }

  /** Holdings from `portfolio`, 0 for a symbol never traded (Python's `defaultdict(int)`). */
  function Holding(portfolio: map<string, int>, symbol: string): int
  {
    if symbol in portfolio then portfolio[symbol] else 0
  }

  /** A symbol's history, empty for a symbol never seen (Python's `defaultdict(list)`). */
  function History(histories: map<string, seq<real>>, symbol: string): seq<real>
  {
    if symbol in histories then histories[symbol] else []
  }

  /** One term of the valuation loop: shares times the last known price, when a price is known. */
  function MarkedValue(symbol: string, portfolio: map<string, int>, prices: map<string, seq<real>>): real
  {
    var h := History(prices, symbol);
    if |h| > 0 then Holding(portfolio, symbol) as real * h[|h| - 1] else 0.0
  }

  /** The sum of `MarkedValue` over a set of symbols. */
  ghost function MarkedTotal(symbols: set<string>, portfolio: map<string, int>, prices: map<string, seq<real>>): real
    decreases symbols
  {
    if symbols == {} then 0.0
    else
      var s :| s in symbols;
      MarkedValue(s, portfolio, prices) + MarkedTotal(symbols - {s}, portfolio, prices)
  }

  /** The total does not depend on which symbol is taken out first. */
  lemma {:induction false} MarkedTotalRemove(symbols: set<string>, s: string,
                                              portfolio: map<string, int>, prices: map<string, seq<real>>)
    requires s in symbols
    ensures MarkedTotal(symbols, portfolio, prices)
         == MarkedValue(s, portfolio, prices) + MarkedTotal(symbols - {s}, portfolio, prices)
    decreases symbols
  {
    var t :| t in symbols && MarkedTotal(symbols, portfolio, prices)
      == MarkedValue(t, portfolio, prices) + MarkedTotal(symbols - {t}, portfolio, prices);
    if t != s {
      MarkedTotalRemove(symbols - {t}, s, portfolio, prices);
      MarkedTotalRemove(symbols - {s}, t, portfolio, prices);
      assert symbols - {t} - {s} == symbols - {s} - {t};
    }
  }

  /** With no short positions and non-negative prices the marked total is never negative. */
  lemma {:induction false} MarkedTotalNonNegative(symbols: set<string>, portfolio: map<string, int>,
                                                  prices: map<string, seq<real>>)
    requires forall s :: s in portfolio ==> portfolio[s] >= 0
    requires forall s :: s in prices ==> forall i :: 0 <= i < |prices[s]| ==> prices[s][i] >= 0.0
    ensures MarkedTotal(symbols, portfolio, prices) >= 0.0
    decreases symbols
  {
    if symbols != {} {
      var s :| s in symbols;
      MarkedTotalRemove(symbols, s, portfolio, prices);
      MarkedTotalNonNegative(symbols - {s}, portfolio, prices);
      var h := History(prices, s);
      if |h| > 0 {
        assert h[|h| - 1] >= 0.0;
        assert Holding(portfolio, s) as real * h[|h| - 1] >= 0.0;
      }
    }
  }
}

=== FILE: options.dfy ===
/** The "value or nothing" type used wherever the client returns Python's None. */
module Options {
  datatype Option<+T> = None | Some(value: T)
}

=== FILE: orderintake.dfy ===
/**
 * The receive loop of the order server's `handle_order_client`
 * (tcp_server.py:57-73): received text is buffered, cut into lines at each
 * '\n', blank lines are skipped, and every other line is accepted when its
 * stripped text parses as JSON and reported as invalid otherwise.
 */
module OrderIntake {

  /** The characters Python's `str.strip()` removes: the Unicode whitespace set. */
  predicate IsSpace(c: char)
  {
    c == ' ' || '\t' <= c <= '\r' || '\U{1c}' <= c <= '\U{1f}' || c == '\U{85}' || c == '\U{a0}'
    || c == '\U{1680}' || '\U{2000}' <= c <= '\U{200a}' || c == '\U{2028}' || c == '\U{2029}'
    || c == '\U{202f}' || c == '\U{205f}' || c == '\U{3000}'
  }

  /** `s` with its leading whitespace removed. */
  function StripStart(s: string): (r: string)
    ensures |r| <= |s|
    ensures r == [] || !IsSpace(r[0])
    ensures forall i :: 0 <= i < |s| - |r| ==> IsSpace(s[i])
  {
    if |s| > 0 && IsSpace(s[0]) then StripStart(s[1..]) else s
  }

  /** `s` with its trailing whitespace removed. */
  function StripEnd(s: string): (r: string)
    ensures |r| <= |s|
    ensures r == [] || !IsSpace(r[|r| - 1])
    ensures forall i :: |r| <= i < |s| ==> IsSpace(s[i])
  {
    if |s| > 0 && IsSpace(s[|s| - 1]) then StripEnd(s[..|s| - 1]) else s
  }

  /** What `StripStart` keeps is a suffix of its argument. */
  lemma {:induction false} StripStartIsSuffix(s: string)
    ensures StripStart(s) == s[|s| - |StripStart(s)|..]
    decreases |s|
  {
    if |s| > 0 && IsSpace(s[0]) {
      StripStartIsSuffix(s[1..]);
    }
  }

  /** What `StripEnd` keeps is a prefix of its argument. */
  lemma {:induction false} StripEndIsPrefix(s: string)
    ensures StripEnd(s) == s[..|StripEnd(s)|]
    decreases |s|
  {
    if |s| > 0 && IsSpace(s[|s| - 1]) {
      StripEndIsPrefix(s[..|s| - 1]);
    }
  }

  /** `str.strip()`. */
  function Strip(s: string): string
  {
    StripEnd(StripStart(s))
  }

  /** What `strip()` keeps is the contiguous part of `s` after its leading whitespace. */
  lemma StripIsSlice(s: string)
    ensures var i := |s| - |StripStart(s)|;
      i + |Strip(s)| <= |s| && Strip(s) == s[i..i + |Strip(s)|]
  {
    var t := StripStart(s);
    var r := StripEnd(t);
    StripStartIsSuffix(s);
    StripEndIsPrefix(t);
    SliceOfSuffix(s, |s| - |t|, |r|);
  }

  lemma SliceOfSuffix(s: string, i: nat, n: nat)
    requires i + n <= |s|
    ensures s[i..][..n] == s[i..i + n]
  {
  }

  /** Everything `strip()` cuts off, before or after what it keeps, is whitespace. */
  lemma StripCutsWhitespace(s: string)
    ensures var i := |s| - |StripStart(s)|;
      && (forall k :: 0 <= k < i ==> IsSpace(s[k]))
      && (forall k :: i + |Strip(s)| <= k < |s| ==> IsSpace(s[k]))
  {
    var t := StripStart(s);
    var i := |s| - |t|;
    StripStartIsSuffix(s);
    forall k | i + |Strip(s)| <= k < |s| ensures IsSpace(s[k]) {
      assert s[k] == t[k - i];
    }
  }

  /** What `strip()` keeps neither starts nor ends with whitespace. */
  lemma StripEndsNonSpace(s: string)
    ensures Strip(s) == [] || (!IsSpace(Strip(s)[0]) && !IsSpace(Strip(s)[|Strip(s)| - 1]))
  {
    var t := StripStart(s);
    var r := StripEnd(t);
    StripEndIsPrefix(t);
    if r != [] {
      assert r[0] == t[0];
    }
  }

  /** A line is blank (`not line.strip()`) exactly when every character is whitespace. */
  lemma StripEmptyIffBlank(s: string)
    ensures Strip(s) == [] <==> forall k :: 0 <= k < |s| ==> IsSpace(s[k])
  {
    var t := StripStart(s);
    StripStartIsSuffix(s);
    if t != [] {
      assert t[0] == s[|s| - |t|];
    }
  }

  /** Stripping twice is stripping once. */
  lemma StripIdempotent(s: string)
    ensures Strip(Strip(s)) == Strip(s)
  {
    var r := Strip(s);
    StripEndsNonSpace(s);
    if r != [] {
      assert StripStart(r) == r;
    }
  }

  /** The index of the first '\n', where `buffer.split("\n", 1)` cuts. */
  function FirstNewline(s: string): (i: nat)
    requires '\n' in s
    ensures i < |s| && s[i] == '\n'
    ensures forall j :: 0 <= j < i ==> s[j] != '\n'
  {
    if s[0] == '\n' then 0
    else
      assert '\n' in s[1..] by {
        var j :| 0 <= j < |s| && s[j] == '\n';
        assert s[1..][j - 1] == '\n';
      }
      1 + FirstNewline(s[1..])
  }

  /** The first newline after a newline-free prefix is the one that ends it. */
  lemma FirstNewlineAfter(line: string, tail: string)
    requires '\n' !in line
    ensures '\n' in line + "\n" + tail
    ensures FirstNewline(line + "\n" + tail) == |line|
  {
    var s := line + "\n" + tail;
    assert s[|line|] == '\n';
  }

  /** The text before the first newline holds no newline. */
  lemma BeforeFirstNewline(s: string)
    requires '\n' in s
    ensures '\n' !in s[..FirstNewline(s)]
  {
    var i := FirstNewline(s);
    forall j | 0 <= j < i ensures s[..i][j] != '\n' {
      assert s[..i][j] == s[j];
    }
  }

  /** Cutting at a newline and putting the pieces back with a newline between them. */
  lemma CutAt(s: string, i: nat)
    requires i < |s| && s[i] == '\n'
    ensures s == s[..i] + "\n" + s[i + 1..]
  {
  }

  lemma Regroup(a: string, b: string, c: string, d: string)
    requires b + c == d
    ensures (a + "\n" + b) + c == a + "\n" + d
  {
  }

  /** Lines each followed by a '\n', the inverse of `Split` on its lines. */
  function Join(lines: seq<string>): string
  {
    if |lines| == 0 then "" else lines[0] + "\n" + Join(lines[1..])
  }

  lemma JoinCons(line: string, lines: seq<string>)
    ensures Join([line] + lines) == line + "\n" + Join(lines)
  {
    assert ([line] + lines)[1..] == lines;
  }

  predicate NoNewline(lines: seq<string>)
  {
    forall j :: 0 <= j < |lines| ==> '\n' !in lines[j]
  }

  lemma NoNewlineConcat(a: seq<string>, b: seq<string>)
    requires NoNewline(a) && NoNewline(b)
    ensures NoNewline(a + b)
  {
    forall j | 0 <= j < |a + b| ensures '\n' !in (a + b)[j] {
      if j >= |a| {
        assert (a + b)[j] == b[j - |a|];
      }
    }
  }

  /** The complete lines of a buffer and the unterminated text after the last '\n'. */
  datatype Framed = Framed(lines: seq<string>, rest: string)

  /**
   * Repeated `line, buffer = buffer.split("\n", 1)` while a '\n' remains:
   * the lines cut off, in order, and the buffer left over.
   */
  function Split(buffer: string): Framed
    decreases |buffer|
  {
    if '\n' in buffer then
      var i := FirstNewline(buffer);
      var tail := Split(buffer[i + 1..]);
      Framed([buffer[..i]] + tail.lines, tail.rest)
    else Framed([], buffer)
  }

  /** One step of `Split`: the text before the first newline, then the split of what follows it. */
  lemma SplitStep(buffer: string)
    requires '\n' in buffer
    ensures var i := FirstNewline(buffer);
      Split(buffer) == Framed([buffer[..i]] + Split(buffer[i + 1..]).lines, Split(buffer[i + 1..]).rest)
  {
  }

  /** The lines and the leftover put back together give the buffer: nothing is lost, duplicated or reordered. */
  lemma {:induction false} SplitReassembles(buffer: string)
    ensures Join(Split(buffer).lines) + Split(buffer).rest == buffer
    decreases |buffer|
  {
    if '\n' in buffer {
      var i := FirstNewline(buffer);
      var line, after := buffer[..i], buffer[i + 1..];
      var tail := Split(after);
      SplitReassembles(after);
      JoinCons(line, tail.lines);
      Regroup(line, Join(tail.lines), tail.rest, after);
      CutAt(buffer, i);
    }
  }

  /** No line cut off and not the leftover holds a '\n'. */
  lemma {:induction false} SplitHasNoNewlines(buffer: string)
    ensures NoNewline(Split(buffer).lines) && '\n' !in Split(buffer).rest
    decreases |buffer|
  {
    if '\n' in buffer {
      var i := FirstNewline(buffer);
      var tail := Split(buffer[i + 1..]);
      SplitHasNoNewlines(buffer[i + 1..]);
      BeforeFirstNewline(buffer);
      NoNewlineConcat([buffer[..i]], tail.lines);
    }
  }

  /** Splitting is the exact inverse of joining newline-free lines onto a newline-free rest. */
  lemma {:induction false} SplitJoin(lines: seq<string>, rest: string)
    requires NoNewline(lines) && '\n' !in rest
    ensures Split(Join(lines) + rest) == Framed(lines, rest)
    decreases |lines|
  {
    if |lines| > 0 {
      var line, others := lines[0], lines[1..];
      var after := Join(others) + rest;
      var buffer := Join(lines) + rest;
      Regroup(line, Join(others), rest, after);
      assert buffer == line + "\n" + after;
      FirstNewlineAfter(line, after);
      assert buffer[..|line|] == line;
      assert buffer[|line| + 1..] == after;
      SplitJoin(others, rest);
      assert lines == [line] + others;
    }
  }

  lemma {:induction false} JoinConcat(a: seq<string>, b: seq<string>)
    ensures Join(a + b) == Join(a) + Join(b)
    decreases |a|
  {
    if |a| > 0 {
      assert (a + b)[0] == a[0] && (a + b)[1..] == a[1..] + b;
      JoinConcat(a[1..], b);
      Regroup(a[0], Join(a[1..]), Join(b), Join(a[1..] + b));
    } else {
      assert a + b == b;
    }
  }

  lemma Associative<T>(a: seq<T>, b: seq<T>, c: seq<T>)
    ensures (a + b) + c == a + (b + c)
  {
  }

  /**
   * Framing is incremental: splitting `a + b` gives the lines of `a`, then
   * the lines of `a`'s leftover followed by `b`. Where a chunk boundary
   * falls never changes the lines.
   */
  lemma SplitAppend(a: string, b: string)
    ensures var first := Split(a);
      var second := Split(first.rest + b);
      Split(a + b) == Framed(first.lines + second.lines, second.rest)
  {
    var first := Split(a);
    var second := Split(first.rest + b);
    SplitReassembles(a);
    SplitReassembles(first.rest + b);
    SplitHasNoNewlines(a);
    SplitHasNoNewlines(first.rest + b);
    JoinConcat(first.lines, second.lines);
    Associative(Join(first.lines), first.rest, b);
    Associative(Join(first.lines), Join(second.lines), second.rest);
    NoNewlineConcat(first.lines, second.lines);
    SplitJoin(first.lines + second.lines, second.rest);
  }

  /** What the server does with one line: nothing if it is blank, else it logs it as an order or as invalid. */
  datatype LineEvent = Accepted(order: string) | Rejected(line: string)

  /**
   * The events of one complete line. `parses` stands for `json.loads`
   * succeeding on the stripped text; the rejected line is logged unstripped.
   */
  function LineEvents(line: string, parses: string -> bool): (r: seq<LineEvent>)
    ensures r == [] <==> Strip(line) == []
    ensures |r| <= 1
    ensures r != [] && r[0].Accepted? ==> r[0].order == Strip(line) && parses(Strip(line))
    ensures r != [] && r[0].Rejected? ==> r[0].line == line && !parses(Strip(line))
  {
    var stripped := Strip(line);
    if stripped == [] then []
    else if parses(stripped) then [Accepted(stripped)]
    else [Rejected(line)]
  }

  /** The events of a run of lines, in order. */
  function Events(lines: seq<string>, parses: string -> bool): seq<LineEvent>
  {
    if |lines| == 0 then [] else LineEvents(lines[0], parses) + Events(lines[1..], parses)
  }

  lemma EventsCons(line: string, lines: seq<string>, parses: string -> bool)
    ensures Events([line] + lines, parses) == LineEvents(line, parses) + Events(lines, parses)
  {
    assert ([line] + lines)[1..] == lines;
  }

  /**
   * The events of consecutive runs of lines are the events of each run in
   * turn: an invalid line never stops or alters the handling of later ones.
   */
  lemma {:induction false} EventsAppend(a: seq<string>, b: seq<string>, parses: string -> bool)
    ensures Events(a + b, parses) == Events(a, parses) + Events(b, parses)
    decreases |a|
  {
    if |a| > 0 {
      var rest := a[1..];
      assert a + b == [a[0]] + (rest + b);
      EventsCons(a[0], rest + b, parses);
      EventsAppend(rest, b, parses);
      Associative(LineEvents(a[0], parses), Events(rest, parses), Events(b, parses));
    } else {
      assert a + b == b;
    }
  }

  /** Every accepted order is a stripped, non-blank line that parsed. */
  lemma {:induction false} EventsAreParsedLines(lines: seq<string>, parses: string -> bool)
    ensures |Events(lines, parses)| <= |lines|
    ensures forall e :: e in Events(lines, parses) && e.Accepted? ==>
      e.order != [] && parses(e.order) && Strip(e.order) == e.order
    ensures forall e :: e in Events(lines, parses) && e.Rejected? ==> e.line in lines
  {
    if |lines| > 0 {
      var first, others := lines[0], lines[1..];
      EventsAreParsedLines(others, parses);
      StripIdempotent(first);
      assert forall l :: l in others ==> l in lines;
    }
  }

  /** One result of `client.recv(1024).decode("utf-8")`: the text, or a failure (reset, bad UTF-8). */
  datatype Receipt = Received(text: string) | Failed

  /** A receipt that ends the loop: `if not data: break`, or the `except Exception` handler. */
  predicate Stops(r: Receipt)
  {
    r.Failed? || r.text == []
  }

  /** The texts the loop appends to its buffer: every receipt up to the first one that stops it. */
  function Delivered(receipts: seq<Receipt>): (r: seq<string>)
    ensures |r| <= |receipts|
    ensures forall j :: 0 <= j < |r| ==> r[j] != [] && receipts[j] == Received(r[j])
    ensures |r| == |receipts| || Stops(receipts[|r|])
  {
    if |receipts| == 0 || Stops(receipts[0]) then []
    else [receipts[0].text] + Delivered(receipts[1..])
  }

  lemma DeliveredStep(receipts: seq<Receipt>, k: nat)
    requires k < |receipts|
    ensures Delivered(receipts[k..])
         == if Stops(receipts[k]) then [] else [receipts[k].text] + Delivered(receipts[k + 1..])
  {
    assert receipts[k..][1..] == receipts[k + 1..];
  }

  /** All delivered text, in arrival order. */
  function Concat(texts: seq<string>): string
  {
    if |texts| == 0 then "" else Concat(texts[..|texts| - 1]) + texts[|texts| - 1]
  }

  lemma ConcatSnoc(texts: seq<string>, text: string)
    ensures Concat(texts + [text]) == Concat(texts) + text
  {
    assert (texts + [text])[..|texts|] == texts;
  }

  /**
   * The inner `while "\n" in buffer` loop of `handle_order_client`: cut off
   * and handle every complete line of `buffer`, logging after `logged`.
   */
  method TakeLines(buffer0: string, logged: seq<LineEvent>, parses: string -> bool)
    returns (events: seq<LineEvent>, buffer: string)
    ensures buffer == Split(buffer0).rest
    ensures events == logged + Events(Split(buffer0).lines, parses)
    ensures '\n' !in buffer
    ensures '\n' !in buffer0 ==> events == logged && buffer == buffer0
  {
    SplitHasNoNewlines(buffer0);
    buffer, events := buffer0, logged;
    while '\n' in buffer
      invariant Split(buffer).rest == Split(buffer0).rest
      invariant events + Events(Split(buffer).lines, parses) == logged + Events(Split(buffer0).lines, parses)
      decreases |buffer|
    {
      var i := FirstNewline(buffer);
      var line := buffer[..i];
      var after := buffer[i + 1..];
      SplitStep(buffer);
      EventsCons(line, Split(after).lines, parses);
      ghost var next := events + LineEvents(line, parses);
      Associative(events, LineEvents(line, parses), Events(Split(after).lines, parses));
      buffer := after;
      var stripped := Strip(line);
      if stripped == [] {
        assert events == next;
        continue;
      }
      if parses(stripped) {
        events := events + [Accepted(stripped)];
      } else {
        events := events + [Rejected(line)];
      }
      assert events == next;
    }
  }

  /**
   * `handle_order_client` over a connection that delivers `receipts`: the
   * events it logs are those of the complete lines of everything delivered
   * before the loop stopped, and the buffer it drops at `client.close()` is
   * the unterminated text after the last '\n'.
   */
  method HandleOrderClient(receipts: seq<Receipt>, parses: string -> bool) returns (events: seq<LineEvent>, buffer: string)
    ensures var framed := Split(Concat(Delivered(receipts)));
      events == Events(framed.lines, parses) && buffer == framed.rest
    ensures '\n' !in buffer
  {
    buffer := "";
    events := [];
    ghost var received: seq<string> := [];
    var k := 0;
    while k < |receipts|
      invariant 0 <= k <= |receipts|
      invariant Delivered(receipts) == received + Delivered(receipts[k..])
      invariant buffer == Split(Concat(received)).rest
      invariant events == Events(Split(Concat(received)).lines, parses)
    {
      DeliveredStep(receipts, k);
      var receipt := receipts[k];
      if Stops(receipt) {
        assert received + [] == received;
        break;
      }
      var data := receipt.text;
      ghost var before := Concat(received);
      SplitAppend(before, data);
      EventsAppend(Split(before).lines, Split(buffer + data).lines, parses);
      Associative(received, [data], Delivered(receipts[k + 1..]));
      ConcatSnoc(received, data);
      received := received + [data];
      buffer := buffer + data;
      events, buffer := TakeLines(buffer, events, parses);
      k := k + 1;
    }
    if k == |receipts| {
      assert receipts[k..] == [];
      assert Delivered(receipts) == received;
    }
    SplitHasNoNewlines(Concat(received));
  }
}

=== FILE: rounding.dfy ===
/**
 * Exact-arithmetic stand-ins for the two numeric conversions the trading
 * client relies on: Python's `round(x, 2)` and `int(x)` on a float.
 * Prices and capital are modelled as exact reals, so these are the
 * mathematical operations that the float code approximates.
 */
module Rounding {

  function Abs(x: real): real { if x < 0.0 then -x else x }

  /** Python's `int(x)` for a float: truncation toward zero. */
  function Trunc(x: real): int
  {
    if x >= 0.0 then x.Floor else -((-x).Floor)
  }

  /** `int` drops the fractional part: it moves its argument toward zero by less than one. */
  lemma TruncTowardZero(x: real)
    ensures 0.0 <= x ==> 0 <= Trunc(x) && Trunc(x) as real <= x < Trunc(x) as real + 1.0
    ensures x < 0.0 ==> Trunc(x) <= 0 && Trunc(x) as real - 1.0 < x <= Trunc(x) as real
  {
  }

  /** Nearest integer to `y`, ties going to the even neighbour (Python's rounding rule). */
  function RoundHalfEven(y: real): (n: int)
    ensures y - 0.5 <= n as real <= y + 0.5
    ensures y - y.Floor as real == 0.5 ==> n % 2 == 0
  {
    var f := y.Floor;
    var d := y - f as real;
    if d < 0.5 then f
    else if d > 0.5 then f + 1
    else if f % 2 == 0 then f
    else f + 1
  }

  /** `round(x, 2)`: the nearest multiple of 0.01, ties to even. */
  function Round2(x: real): (r: real)
    ensures x - 0.005 <= r <= x + 0.005
    ensures (r * 100.0).Floor as real == r * 100.0
  {
    RoundHalfEven(x * 100.0) as real / 100.0
  }

  /** No integer is nearer to `y` than the rounded one. */
  lemma RoundHalfEvenNearest(y: real, k: int)
    ensures Abs(RoundHalfEven(y) as real - y) <= Abs(k as real - y)
  {
    var n := RoundHalfEven(y);
    if k > n {
      assert k as real >= n as real + 1.0 >= y + 0.5;
    } else if k < n {
      assert k as real <= n as real - 1.0 <= y - 0.5;
    }
  }

  /** No whole number of cents is nearer to `x` than `round(x, 2)`. */
  lemma Round2Nearest(x: real, k: int)
    ensures Abs(Round2(x) - x) <= Abs(k as real / 100.0 - x)
  {
    RoundHalfEvenNearest(x * 100.0, k);
    var n := RoundHalfEven(x * 100.0);
    assert Round2(x) - x == (n as real - x * 100.0) / 100.0;
    assert k as real / 100.0 - x == (k as real - x * 100.0) / 100.0;
  }

  lemma RoundHalfEvenMonotone(y1: real, y2: real)
    requires y1 <= y2
    ensures RoundHalfEven(y1) <= RoundHalfEven(y2)
  {
    var f1, f2 := y1.Floor, y2.Floor;
    if f1 < f2 {
      assert RoundHalfEven(y1) <= f1 + 1 <= f2 <= RoundHalfEven(y2);
    }
  }

  /** Rounding never reverses the order of two values. */
  lemma Round2Monotone(x: real, y: real)
    requires x <= y
    ensures Round2(x) <= Round2(y)
  {
    RoundHalfEvenMonotone(x * 100.0, y * 100.0);
  }

  /** A value that already is a whole number of cents is left as it is. */
  lemma Round2Cents(k: int)
    ensures Round2(k as real / 100.0) == k as real / 100.0
  {
    assert (k as real / 100.0) * 100.0 == k as real;
    assert (k as real).Floor == k;
  }

  /** Rounding keeps a value inside any interval whose ends are whole numbers of cents. */
  lemma Round2Within(x: real, lo: int, hi: int)
    requires lo as real / 100.0 <= x <= hi as real / 100.0
    ensures lo as real / 100.0 <= Round2(x) <= hi as real / 100.0
  {
    Round2Monotone(lo as real / 100.0, x);
    Round2Monotone(x, hi as real / 100.0);
    Round2Cents(lo);
    Round2Cents(hi);
  }

  /** Ties go to the even cent, as Python's `round` does on exactly representable halves. */
  lemma Round2HalfEven()
    ensures Round2(0.125) == 0.12 && Round2(0.375) == 0.38 && Round2(-0.125) == -0.12
  {
    assert (12.5).Floor == 12 && (37.5).Floor == 37 && (-12.5).Floor == -13;
  }
}

=== FILE: signals.dfy ===
/**
 * The signal engine of `FinanceClient`: volume classification, the
 * BUY/SELL/WAIT rule and the bounded sentiment score.
 */
module Signals {
  import opened Options
  import opened Rounding

  /** `analyze_volume`'s "HIGH" / "LOW" / "NORMAL". */
  datatype Volume = High | Low | Normal

  /** The trade signal "BUY" / "SELL" / "WAIT". */
  datatype Signal = Buy | Sell | Wait

  /**
   * The `News` field of a tick after `int(news)`: absent (the default "50"),
   * converted to an integer, or rejected by `int` with a ValueError.
   */
  datatype News = Absent | Value(n: int) | Malformed

  /** `analyze_volume(quantity, avg_quantity)`. */
  function AnalyzeVolume(quantity: int, avg: Option<real>): (r: Volume)
    ensures avg.None? ==> r == Normal
    ensures r == High <==> avg.Some? && quantity as real > avg.value * 1.5
    ensures r == Low <==> avg.Some? && quantity as real < avg.value * 0.5 && quantity as real <= avg.value * 1.5
  {
    match avg
    case None => Normal
    case Some(a) =>
      if quantity as real > a * 1.5 then High
      else if quantity as real < a * 0.5 then Low
      else Normal
  }

  function VolumeRank(v: Volume): int
  {
    match v
    case Low => 0
    case Normal => 1
    case High => 2
  }

  /** For a non-negative average, a larger traded quantity never gets a lower class. */
  lemma AnalyzeVolumeMonotone(q1: int, q2: int, avg: real)
    requires 0.0 <= avg && q1 <= q2
    ensures VolumeRank(AnalyzeVolume(q1, Some(avg))) <= VolumeRank(AnalyzeVolume(q2, Some(avg)))
  {
  }

  /** The reference points: twice the average is HIGH, 0.4 times is LOW, the average itself is NORMAL. */
  lemma AnalyzeVolumeReferencePoints(avg: int)
    requires avg > 0
    ensures AnalyzeVolume(2 * avg, Some(avg as real)) == High
    ensures 5 * (2 * avg / 5) == 2 * avg ==> AnalyzeVolume(2 * avg / 5, Some(avg as real)) == Low
    ensures AnalyzeVolume(avg, Some(avg as real)) == Normal
  {
  }

  /**
   * The rule at trading_client.py:195-200: WAIT until the price average is
   * available; BUY above the average unless volume is LOW; SELL below it
   * unless volume is HIGH.
   */
  function DecideSignal(price: real, priceMa: Option<real>, volume: Volume): (r: Signal)
    ensures priceMa.None? ==> r == Wait
    ensures r == Buy <==> priceMa.Some? && price > priceMa.value && volume != Low
    ensures r == Sell <==> priceMa.Some? && price < priceMa.value && volume != High
    ensures priceMa == Some(price) ==> r == Wait
  {
    if priceMa.Some? && price > priceMa.value && volume != Low then Buy
    else if priceMa.Some? && price < priceMa.value && volume != High then Sell
    else Wait
  }

  /** `all(s[i] < s[i + 1] for i in range(len(s) - 1))`. */
  predicate StrictlyRising(s: seq<real>)
  {
    forall i :: 0 <= i < |s| - 1 ==> s[i] < s[i + 1]
  }

  /** `all(s[i] > s[i + 1] for i in range(len(s) - 1))`. */
  predicate StrictlyFalling(s: seq<real>)
  {
    forall i :: 0 <= i < |s| - 1 ==> s[i] > s[i + 1]
  }

  /** The trend term: +25 / -25 when the last three prices rise / fall strictly. */
  function TrendFactor(history: seq<real>): (r: real)
    ensures r == 25.0 <==>
      |history| >= 3 && history[|history| - 3] < history[|history| - 2] < history[|history| - 1]
    ensures r == -25.0 <==>
      |history| >= 3 && history[|history| - 3] > history[|history| - 2] > history[|history| - 1]
    ensures r == 0.0 || r == 25.0 || r == -25.0
  {
    if |history| >= 3 then
      var recent := history[|history| - 3..];
      assert recent[0] == history[|history| - 3] && recent[1] == history[|history| - 2];
      assert recent[2] == history[|history| - 1];
      if StrictlyRising(recent) then 25.0
      else if StrictlyFalling(recent) then -25.0
      else 0.0
    else 0.0
  }

  /** `int(news)`, or 50 when the field is absent or `int` raises ValueError. */
  function NewsValue(news: News): int
  {
    match news
    case Absent => 50
    case Value(n) => n
    case Malformed => 50
  }

  /**
   * The news term (trading_client.py:68-76). Lines 73-74 first turn 100
   * into 0 and then every 0 into 100, so both extremes end up at 100.
   */
  function NewsFactor(news: News): real
  {
    var v := NewsValue(news);
    var v1 := if v == 100 then 0 else v;
    var v2 := if v1 == 0 then 100 else v1;
    (v2 - 50) as real / 2.0
  }

  /** Bearish (0) and bullish (100) news collapse to the same +25; neutral and unreadable news give 0. */
  lemma NewsFactorCollapse()
    ensures NewsFactor(Value(0)) == 25.0 && NewsFactor(Value(100)) == 25.0
    ensures NewsFactor(Value(50)) == 0.0
    ensures NewsFactor(Absent) == 0.0 && NewsFactor(Malformed) == 0.0
  {
  }

  /**
   * Any news value in 0..100 gives a term in (-25, 25]: only 0 and 100 are
   * moved, so the full bearish -25 is never reached.
   */
  lemma NewsFactorInRange(n: int)
    requires 0 <= n <= 100
    ensures -25.0 < NewsFactor(Value(n)) <= 25.0
    ensures n != 0 && n != 100 ==> NewsFactor(Value(n)) == (n - 50) as real / 2.0
  {
  }

  /** The buy/sell volume ratio term: 0 unless both averages exist and the sell average is non-zero. */
  function VolumeRatioFactor(buyMa: Option<real>, sellMa: Option<real>): (r: real)
    ensures !(buyMa.Some? && sellMa.Some? && sellMa.value != 0.0) ==> r == 0.0
    ensures buyMa.Some? && sellMa.Some? && sellMa.value != 0.0 ==>
      r == (buyMa.value / sellMa.value - 1.0) * 25.0
  {
    if buyMa.Some? && sellMa.Some? && sellMa.value != 0.0 then
      (buyMa.value / sellMa.value - 1.0) * 25.0
    else 0.0
  }

  /** The volume term (trading_client.py:52-56): +25 for HIGH, -25 for LOW, 0 for NORMAL. */
  function VolumeFactor(volume: Volume): (r: real)
    ensures r == 25.0 <==> volume == High
    ensures r == -25.0 <==> volume == Low
    ensures volume == Normal ==> r == 0.0
    ensures -25.0 <= r <= 25.0
  {
    match volume
    case High => 25.0
    case Low => -25.0
    case Normal => 0.0
  }

  /** `min(100, max(-100, x))`. */
  function Clamp100(x: real): (r: real)
    ensures -100.0 <= r <= 100.0
    ensures -100.0 <= x <= 100.0 ==> r == x
    ensures x > 100.0 ==> r == 100.0
    ensures x < -100.0 ==> r == -100.0
  {
    if x > 100.0 then 100.0 else if x < -100.0 then -100.0 else x
  }

  /** Sum of the five sentiment terms before clamping; `priceMa` is the non-zero price average. */
  function RawSentiment(price: real, priceMa: real, volume: Volume, history: seq<real>,
                        news: News, buyMa: Option<real>, sellMa: Option<real>): real
    requires priceMa != 0.0
  {
    (price / priceMa - 1.0) * 100.0 + VolumeFactor(volume) + TrendFactor(history)
      + NewsFactor(news) + VolumeRatioFactor(buyMa, sellMa)
  }

  /**
   * `analyze_sentiment`. None stands for the ZeroDivisionError that
   * `price / price_ma` raises when the (rounded) price average is 0.
   */
  function Sentiment(price: real, priceMa: Option<real>, volume: Volume, history: seq<real>,
                     news: News, buyMa: Option<real>, sellMa: Option<real>): (r: Option<real>)
    ensures priceMa.None? ==> r == Some(0.0)
    ensures r.None? <==> priceMa == Some(0.0)
    ensures r.Some? ==> -100.0 <= r.value <= 100.0
  {
    match priceMa
    case None => Some(0.0)
    case Some(ma) =>
      if ma == 0.0 then None
      else
        var clamped := Clamp100(RawSentiment(price, ma, volume, history, news, buyMa, sellMa));
        Round2Within(clamped, -10000, 10000);
        Some(Round2(clamped))
  }

  /** With everything else fixed and a positive average, a higher price never lowers the sentiment. */
  lemma SentimentMonotoneInPrice(p1: real, p2: real, ma: real, volume: Volume, history: seq<real>,
                                 news: News, buyMa: Option<real>, sellMa: Option<real>)
    requires ma > 0.0 && p1 <= p2
    ensures Sentiment(p1, Some(ma), volume, history, news, buyMa, sellMa).value
         <= Sentiment(p2, Some(ma), volume, history, news, buyMa, sellMa).value
  {
    assert p1 / ma <= p2 / ma by {
      assert p2 / ma - p1 / ma == (p2 - p1) / ma;
    }
    var x1 := Clamp100(RawSentiment(p1, ma, volume, history, news, buyMa, sellMa));
    var x2 := Clamp100(RawSentiment(p2, ma, volume, history, news, buyMa, sellMa));
    Round2Monotone(x1, x2);
  }

  /** With a non-zero average the sentiment is the rounded, clamped sum of its five terms. */
  lemma SentimentOfTerms(price: real, ma: real, volume: Volume, history: seq<real>,
                         news: News, buyMa: Option<real>, sellMa: Option<real>)
    requires ma != 0.0
    ensures Sentiment(price, Some(ma), volume, history, news, buyMa, sellMa)
         == Some(Round2(Clamp100((price / ma - 1.0) * 100.0 + VolumeFactor(volume) + TrendFactor(history)
                                 + NewsFactor(news) + VolumeRatioFactor(buyMa, sellMa))))
  {
  }

  /**
   * Rising prices 10..14 against an average of 12, NORMAL volume, no news and no
   * sell average: momentum 16.67, trend +25, nothing else, so 41.67.
   */
  lemma RisingPricesSentiment()
    ensures Sentiment(14.0, Some(12.0), Normal, [10.0, 11.0, 12.0, 13.0, 14.0], Absent, Some(100.0), None)
         == Some(41.67)
  {
    var history := [10.0, 11.0, 12.0, 13.0, 14.0];
    assert TrendFactor(history) == 25.0 by {
      assert StrictlyRising(history[|history| - 3..]);
    }
    var raw := RawSentiment(14.0, 12.0, Normal, history, Absent, Some(100.0), None);
    assert raw == 125.0 / 3.0;
    assert raw * 100.0 == 4166.0 + 2.0 / 3.0;
    assert RoundHalfEven(raw * 100.0) == 4167;
  }
}

=== FILE: sizing.dfy ===
/**
 * The position sizer of `FinanceClient` (`calculate_trade_quantity`).
 * None stands for the ZeroDivisionError that `max_investment / price`
 * raises on a zero price when the signal is not WAIT.
 */
module Sizing {
  import opened Options
  import opened Rounding
  import opened Signals

  function MinReal(a: real, b: real): real { if a <= b then a else b }
  function MinInt(a: int, b: int): int { if a <= b then a else b }
  function MaxInt(a: int, b: int): int { if a >= b then a else b }

  /** `sentiment_weight`: |sentiment| / 100, between 0 and 1 for a sentiment in [-100, 100]. */
  function Weight(sentiment: real): (r: real)
    ensures 0.0 <= r
    ensures -100.0 <= sentiment <= 100.0 ==> r <= 1.0
  {
    Abs(sentiment) / 100.0
  }

  /** `max_capital_percent`: between 10% and 50% of the capital, growing with the weight. */
  function CapitalFraction(sentiment: real): (r: real)
    ensures 0.1 <= r <= 0.5
  {
    MinReal(0.5, 0.1 + 0.4 * Weight(sentiment))
  }

  /** `int(10000 / price)` capped by `min(1, …)`: the minimum quantity, never above 1. */
  function MinQuantity(price: real): (r: int)
    requires price != 0.0
    ensures r <= 1
  {
    MinInt(1, Trunc(10000.0 / price))
  }

  /** `max_quantity`: whole shares that the capital fraction buys at `price`. */
  function MaxQuantity(price: real, sentiment: real, capital: real): int
    requires price != 0.0
  {
    Trunc(capital * CapitalFraction(sentiment) / price)
  }

  /** `max(int(max_quantity * sentiment_weight), min_qty)`. */
  function ScaledQuantity(maxQuantity: int, weight: real, price: real): int
    requires price != 0.0
  {
    MaxInt(Trunc(maxQuantity as real * weight), MinQuantity(price))
  }

  /** Lines 96-110: the quantity before the SELL and BUY adjustments. */
  function BaseQuantity(price: real, sentiment: real, capital: real): Option<int>
  {
    if price == 0.0 then None
    else Some(ScaledQuantity(MaxQuantity(price, sentiment, capital), Weight(sentiment), price))
  }

  /** `calculate_trade_quantity`; `holdings` is `portfolio[symbol]`. */
  function TradeQuantity(price: real, sentiment: real, signal: Signal, capital: real, holdings: int): (r: Option<int>)
    ensures signal == Wait ==> r == Some(0)
    ensures r.None? <==> signal != Wait && price == 0.0
    ensures signal == Sell && r.Some? ==> r.value <= holdings
    ensures signal == Buy && r.Some? && capital < price * r.value as real ==> r.value >= 10000
  {
    if signal == Wait then Some(0)
    else match BaseQuantity(price, sentiment, capital)
      case None => None
      case Some(q) =>
        var q1 := if signal == Sell then MinInt(q, holdings) else q;
        if signal == Buy && capital < price * q1 as real then Some(MaxInt(q1, 10000)) else Some(q1)
  }

  lemma MulLe(c: real, a: real, b: real)
    requires 0.0 <= c && a <= b
    ensures c * a <= c * b && a * c <= b * c
  {
    assert c * b - c * a == c * (b - a);
  }

  lemma ScaleDown(m: real, w: real)
    requires 0.0 <= m && 0.0 <= w <= 1.0
    ensures 0.0 <= m * w <= m
  {
    MulLe(m, w, 1.0);
    MulLe(m, 0.0, w);
  }

  lemma DivAtLeastOne(a: real, p: real)
    requires 0.0 < p <= a
    ensures a / p >= 1.0
  {
    assert p / p == 1.0;
    assert (a - p) / p + p / p == a / p;
  }

  lemma DivBelowOne(a: real, p: real)
    requires 0.0 <= a < p
    ensures a / p < 1.0
  {
    assert p / p == 1.0;
    assert p / p - (p - a) / p == a / p;
    assert (p - a) / p > 0.0;
  }

  lemma DivByNegative(x: real, p: real)
    requires 0.0 <= x && p < 0.0
    ensures x / p <= 0.0
  {
    assert x / p == -(x / -p);
  }

  /** For a positive price up to 10000, the quantity before clamping is at least one share. */
  lemma BaseQuantityAtLeastOne(price: real, sentiment: real, capital: real)
    requires 0.0 < price <= 10000.0
    ensures BaseQuantity(price, sentiment, capital).Some?
    ensures BaseQuantity(price, sentiment, capital).value >= 1
  {
    DivAtLeastOne(10000.0, price);
    TruncTowardZero(10000.0 / price);
  }

  /**
   * Above a price of 10000 the minimum quantity is 0, not `10000 / price`
   * rounded up: `min(1, …)` caps the minimum instead of raising it.
   */
  lemma MinQuantityAboveTenThousand(price: real)
    requires price > 10000.0
    ensures MinQuantity(price) == 0
  {
    DivBelowOne(10000.0, price);
    TruncTowardZero(10000.0 / price);
  }

  /** With a positive price the minimum quantity is 0 or 1, so the sized quantity is never negative. */
  lemma BaseQuantityNonNegative(price: real, sentiment: real, capital: real)
    requires 0.0 < price
    ensures 0 <= MinQuantity(price) <= 1
    ensures BaseQuantity(price, sentiment, capital).Some?
    ensures BaseQuantity(price, sentiment, capital).value >= 0
  {
    TruncTowardZero(10000.0 / price);
  }

  /** With non-negative capital and a negative price the sizer never proposes a positive quantity. */
  lemma BaseQuantityNegativePrice(price: real, sentiment: real, capital: real)
    requires price < 0.0 && 0.0 <= capital
    ensures BaseQuantity(price, sentiment, capital).Some?
    ensures BaseQuantity(price, sentiment, capital).value <= 0
  {
    MaxQuantityNegativePrice(price, sentiment, capital);
    TruncScaledNonPositive(MaxQuantity(price, sentiment, capital), Weight(sentiment));
    DivByNegative(10000.0, price);
    TruncTowardZero(10000.0 / price);
  }

  /** At a negative price, non-negative capital buys a non-positive `max_quantity`. */
  lemma MaxQuantityNegativePrice(price: real, sentiment: real, capital: real)
    requires price < 0.0 && 0.0 <= capital
    ensures MaxQuantity(price, sentiment, capital) <= 0
  {
    var investment := capital * CapitalFraction(sentiment);
    MulLe(capital, 0.0, CapitalFraction(sentiment));
    DivByNegative(investment, price);
    TruncTowardZero(investment / price);
  }

  /** Scaling a non-positive whole quantity by a non-negative weight and truncating stays non-positive. */
  lemma TruncScaledNonPositive(maxQuantity: int, weight: real)
    requires maxQuantity <= 0 && 0.0 <= weight
    ensures Trunc(maxQuantity as real * weight) <= 0
  {
    MulLe(weight, maxQuantity as real, 0.0);
    TruncTowardZero(maxQuantity as real * weight);
  }

  /** `max_quantity`: the whole number of shares the capital fraction buys, within half the capital. */
  lemma MaxQuantityWithinBudget(price: real, sentiment: real, capital: real)
    requires 0.0 < price && 0.0 <= capital
    ensures 0 <= MaxQuantity(price, sentiment, capital)
    ensures MaxQuantity(price, sentiment, capital) as real * price <= capital * 0.5
  {
    var fraction := CapitalFraction(sentiment);
    MulLe(capital, fraction, 0.5);
    MulLe(capital, 0.0, fraction);
    var share := capital * fraction / price;
    assert share * price == capital * fraction;
    TruncTowardZero(share);
    MulLe(price, Trunc(share) as real, share);
  }

  /** The one-share minimum, or a quantity that costs at most half of the capital. */
  predicate WithinBudget(quantity: int, price: real, capital: real)
  {
    quantity <= 1 || quantity as real * price <= capital * 0.5
  }

  /** Scaling a non-negative whole quantity by a weight in [0, 1] and truncating stays within [0, quantity]. */
  lemma TruncScaledWithin(maxQuantity: int, weight: real)
    requires 0 <= maxQuantity && 0.0 <= weight <= 1.0
    ensures 0 <= Trunc(maxQuantity as real * weight) <= maxQuantity
  {
    ScaleDown(maxQuantity as real, weight);
    TruncTowardZero(maxQuantity as real * weight);
  }

  /** Fewer shares at the same positive price cost no more. */
  lemma CostWithin(quantity: int, maxQuantity: int, price: real, budget: real)
    requires 0 <= quantity <= maxQuantity && 0.0 < price
    requires maxQuantity as real * price <= budget
    ensures quantity as real * price <= budget
  {
    MulLe(price, quantity as real, maxQuantity as real);
  }

  /** Scaling `max_quantity` by a weight in [0, 1] and applying the minimum keeps the budget bound. */
  lemma ScaledQuantityWithinBudget(maxQuantity: int, weight: real, price: real, capital: real)
    requires 0 <= maxQuantity && 0.0 <= weight <= 1.0 && 0.0 < price
    requires maxQuantity as real * price <= capital * 0.5
    ensures WithinBudget(ScaledQuantity(maxQuantity, weight, price), price, capital)
  {
    var quantity := Trunc(maxQuantity as real * weight);
    TruncScaledWithin(maxQuantity, weight);
    CostWithin(quantity, maxQuantity, price, capital * 0.5);
    BaseQuantityNonNegative(price, 0.0, 0.0);
  }

  /**
   * With a sentiment in [-100, 100], non-negative capital and a positive
   * price, the quantity is either the one-share minimum or costs at most
   * half of the capital.
   */
  lemma BaseQuantityWithinBudget(price: real, sentiment: real, capital: real)
    requires 0.0 < price && 0.0 <= capital && -100.0 <= sentiment <= 100.0
    ensures BaseQuantity(price, sentiment, capital).Some?
    ensures WithinBudget(BaseQuantity(price, sentiment, capital).value, price, capital)
  {
    var maxQuantity, weight := MaxQuantity(price, sentiment, capital), Weight(sentiment);
    assert 0.0 <= weight <= 1.0;
    MaxQuantityWithinBudget(price, sentiment, capital);
    ScaledQuantityWithinBudget(maxQuantity, weight, price, capital);
  }

  /** A BUY is never sized below the quantity of lines 96-110: line 117 can only raise it. */
  lemma TradeQuantityBuyAtLeastBase(price: real, sentiment: real, capital: real, holdings: int)
    requires price != 0.0
    ensures BaseQuantity(price, sentiment, capital).Some?
    ensures TradeQuantity(price, sentiment, Buy, capital, holdings).Some?
    ensures TradeQuantity(price, sentiment, Buy, capital, holdings).value >= BaseQuantity(price, sentiment, capital).value
  {
    var q := BaseQuantity(price, sentiment, capital).value;
    if capital < price * q as real {
      assert TradeQuantity(price, sentiment, Buy, capital, holdings) == Some(MaxInt(q, 10000));
    } else {
      assert TradeQuantity(price, sentiment, Buy, capital, holdings) == Some(q);
    }
  }

  /** A SELL sells the quantity of lines 96-110, capped at the holding (line 114). */
  lemma SellCappedByHolding(price: real, sentiment: real, capital: real, holdings: int)
    requires price != 0.0
    ensures BaseQuantity(price, sentiment, capital).Some?
    ensures TradeQuantity(price, sentiment, Sell, capital, holdings)
         == Some(MinInt(BaseQuantity(price, sentiment, capital).value, holdings))
  {
  }

  /** A BUY whose cost the capital covers is exactly the quantity of lines 96-110. */
  lemma BuyAffordableIsBase(price: real, sentiment: real, capital: real, holdings: int)
    requires price != 0.0
    requires price * BaseQuantity(price, sentiment, capital).value as real <= capital
    ensures TradeQuantity(price, sentiment, Buy, capital, holdings) == BaseQuantity(price, sentiment, capital)
  {
  }

  /** With at least one share held and a price up to 10000, a SELL sells between one share and the whole holding. */
  lemma SellAtLeastOne(price: real, sentiment: real, capital: real, holdings: int)
    requires 0.0 < price <= 10000.0 && holdings >= 1
    ensures TradeQuantity(price, sentiment, Sell, capital, holdings).Some?
    ensures 1 <= TradeQuantity(price, sentiment, Sell, capital, holdings).value <= holdings
  {
    BaseQuantityAtLeastOne(price, sentiment, capital);
    SellCappedByHolding(price, sentiment, capital, holdings);
  }

  /**
   * A BUY either stays within half of the capital (or is the one-share
   * minimum), or the capital does not cover even one share and line 117
   * bumps it to at least 10000.
   */
  lemma BuyWithinBudgetOrBumped(price: real, sentiment: real, capital: real, holdings: int)
    requires 0.0 < price && 0.0 <= capital && -100.0 <= sentiment <= 100.0
    ensures TradeQuantity(price, sentiment, Buy, capital, holdings).Some?
    ensures var r := TradeQuantity(price, sentiment, Buy, capital, holdings).value;
      WithinBudget(r, price, capital) || (capital < price && r >= 10000)
  {
    BaseQuantityWithinBudget(price, sentiment, capital);
    BaseQuantityNonNegative(price, sentiment, capital);
    var q := BaseQuantity(price, sentiment, capital).value;
    if capital < price * q as real {
      if q >= 2 {
        MulLe(price, 0.0, q as real);
        assert false;
      }
      assert q == 1;
      assert TradeQuantity(price, sentiment, Buy, capital, holdings) == Some(MaxInt(q, 10000));
    } else {
      BuyAffordableIsBase(price, sentiment, capital, holdings);
    }
  }

  /** A SELL with a positive quantity only happens at a positive price (given non-negative capital). */
  lemma SellNeedsPositivePrice(price: real, sentiment: real, capital: real, holdings: int)
    requires 0.0 <= capital
    requires TradeQuantity(price, sentiment, Sell, capital, holdings).Some?
    requires TradeQuantity(price, sentiment, Sell, capital, holdings).value > 0
    ensures price > 0.0
  {
    if price < 0.0 {
      BaseQuantityNegativePrice(price, sentiment, capital);
    }
  }
}

=== FILE: statistics.dfy ===
/**
 * The rolling statistics of `FinanceClient`: the moving average over the
 * last `window_size` entries of a per-symbol history.
 */
module Statistics {
  import opened Options
  import opened Rounding

  /** Sum of a history, folded from its newest end. */
  function Sum(s: seq<real>): real
  {
    if |s| == 0 then 0.0 else Sum(s[..|s| - 1]) + s[|s| - 1]
  }

  /** The last `w` entries of a history, oldest first. */
  function Window(s: seq<real>, w: nat): (r: seq<real>)
    requires w <= |s|
    ensures |r| == w && forall i :: 0 <= i < w ==> r[i] == s[|s| - w + i]
  {
    s[|s| - w..]
  }

  /**
   * `calculate_moving_average`: unavailable (None) until the history holds
   * `w` entries, then the rounded mean of the newest `w` entries.
   */
  function MovingAverage(s: seq<real>, w: nat): (r: Option<real>)
    requires w > 0
    ensures r.None? <==> |s| < w
  {
    if |s| >= w then Some(Round2(Sum(Window(s, w)) / w as real)) else None
  }

  lemma {:induction false} SumBounds(s: seq<real>, lo: real, hi: real)
    requires forall i :: 0 <= i < |s| ==> lo <= s[i] <= hi
    ensures |s| as real * lo <= Sum(s) <= |s| as real * hi
  {
    if |s| > 0 {
      SumBounds(s[..|s| - 1], lo, hi);
    }
  }

  lemma {:induction false} SumConstant(s: seq<real>, c: real)
    requires forall i :: 0 <= i < |s| ==> s[i] == c
    ensures Sum(s) == |s| as real * c
  {
    if |s| > 0 {
      SumConstant(s[..|s| - 1], c);
    }
  }

  /** Once `w` entries exist, the average lies between the (rounded) extremes of the window. */
  lemma MovingAverageBounds(s: seq<real>, w: nat, lo: real, hi: real)
    requires 0 < w <= |s|
    requires forall i :: |s| - w <= i < |s| ==> lo <= s[i] <= hi
    ensures MovingAverage(s, w).Some?
    ensures Round2(lo) <= MovingAverage(s, w).value <= Round2(hi)
  {
    var win := Window(s, w);
    SumBounds(win, lo, hi);
    var mean := Sum(win) / w as real;
    assert lo <= mean <= hi by {
      assert w as real * lo <= Sum(win) <= w as real * hi;
    }
    Round2Monotone(lo, mean);
    Round2Monotone(mean, hi);
  }

  /** A window of equal entries averages to that entry (rounded). */
  lemma MovingAverageConstant(s: seq<real>, w: nat, c: real)
    requires 0 < w <= |s|
    requires forall i :: |s| - w <= i < |s| ==> s[i] == c
    ensures MovingAverage(s, w) == Some(Round2(c))
  {
    var win := Window(s, w);
    forall i | 0 <= i < |win| ensures win[i] == c {
      assert win[i] == s[|s| - w + i];
    }
    SumConstant(win, c);
    assert Sum(win) / w as real == c;
  }

  /** With exactly `w` entries, the average is the rounded mean of the whole history. */
  lemma MovingAverageFullHistory(s: seq<real>, w: nat)
    requires 0 < w == |s|
    ensures MovingAverage(s, w) == Some(Round2(Sum(s) / w as real))
  {
    assert Window(s, w) == s;
  }

  /**
   * Only the newest `w` entries matter: dropping older entries (keeping a
   * bounded history) never changes the average.
   */
  lemma MovingAverageIgnoresOlder(older: seq<real>, s: seq<real>, w: nat)
    requires 0 < w <= |s|
    ensures MovingAverage(older + s, w) == MovingAverage(s, w)
  {
    assert Window(older + s, w) == Window(s, w);
  }
}
